=== FILE: README.md ===
# Forecast data shaping, modelled in Dafny

This project models the data-shaping half of the stock forecasting routine in
`forecast.py`. Nothing in this half depends on the prices themselves; it is
index arithmetic over a price matrix:

- **`splitData`**: the sliding-window builder. The rows of the matrix are
  trading days. Its columns are open, high, low, close, adjusted close and
  volume. It builds:
  - one training input vector per start row, laid out attribute-major and
    then by time offset;
  - one training output vector per start row, holding the next `outputDim`
    close prices (always column 3);
  - one forecast input vector.

  numpy's indexing is modelled too. A negative index counts from the end, and
  an index outside the axis raises `IndexError`. For non-negative whole
  `inputDim` and `outputDim`, the model says exactly when the windowing loops
  of `splitData` (forecast.py:55-82) fail and what they build when they do
  not. The `train_test_split` call that ends `splitData` can still fail
  afterwards; see "Left out".
- **`train_test_split`**: modelled as an abstract shuffle that keeps every
  input with its own output.
- **`compileModel`**: only the layer sizes of the network.
- **Forecast dates in `forecast`**: one date per horizon step, with dates as
  day numbers.
- **`calculateMAPE`**: computed over real numbers. Where numpy would produce
  inf or nan, the result is `NonFinite`.

Modules:

| file | module | what it holds |
|---|---|---|
| `seqs.dfy` | `Seqs` | `Flatten` and its position lemmas |
| `wrappers.dfy` | `Wrappers` | the `Option` type |
| `numpy_index.dfy` | `NumPy` | the matrix type, numpy index wrapping, checked element access |
| `windowing.dfy` | `Windowing` | closed-form `SplitData`, its layout lemmas, the corrected forecast input |
| `windowing_loops.dfy` | `WindowingLoops` | the nested append loops of `splitData`, proved equal to `SplitData` |
| `train_test_split.dfy` | `TrainTestSplit` | the split as a permutation of sample positions |
| `network.dfy` | `Network` | layer sizes, and their agreement with the windows |
| `forecast_dates.dfy` | `ForecastDates` | the forecast date loop |
| `metrics.dfy` | `Metrics` | MAPE over reals |

The series has `L` rows, the lookback is `inputDim` (`I`) and the horizon is
`outputDim` (`O`). What the code does, as proved here:

- There are `max(0, L - I - O)` training samples.
- Input cell `a*I + j` of sample `i` is row `i + j` of attribute `a`.
- Output cell `j` is the close price of row `i + I + j`.
- No training sample reads the last row. The last sample's last target is row
  `L - 2`, because the loop is `range(L - I - O)`.
- The forecast input reads rows `L - I - i` for `i = 0 .. I-1`. That is a
  descending walk from `L - I` down to `L - 2I + 1`, so each attribute block is
  a training-style window read backwards.
- The windowing loops fail with `IndexError` in two cases:
  - `inputDim > 0`, the attribute list is not empty, and the forecast loop
    either reads before the first row (`L < 2I - 1`) or reads a rejected
    column;
  - at least one sample exists, `outputDim > 0`, and column 3 is missing.

Three consequences of the code that a reader might not expect. The model
follows the code in each:

- A series too short for any training sample raises no error of its own. The
  code builds zero samples (`ShortSeriesYieldsNoSamples`).
- The forecast input is not laid out like the training inputs. The network is
  fitted (forecast.py:124) on windows of consecutive rows, attribute-major and
  oldest first (forecast.py:70-72). The forecast input is a different window,
  read newest first. This is recorded under Findings.
- Columns are checked only by numpy's rules. A negative column index is
  accepted and counts from the end; any other index outside the row raises
  `IndexError`.

## Model

| member | source | states |
|---|---|---|
| NumPy.At | forecast.py:63-76 | `m[row, col]` succeeds exactly when both indices are accepted, and then yields the cell at `row mod L`, `col mod width`; a negative row reads row `L + row` |
| NumPy.Wrap | forecast.py:63 | numpy reads an accepted index `k` on an axis of length `n` at `k mod n`, so negative indices count back from the end |
| Windowing.SplitData | forecast.py:55-82 | on success there is one input and one output per start row of `range(L - I - O)`, every output has `O` cells, and a series of at most `I + O` rows gives no inputs |
| Windowing.SplitDataFailsOnRead | forecast.py:61-78 | `splitData` raises `IndexError` exactly when one of its numpy reads does: a forecast read `stockData[-(I+i), a]`, or an input or close read of the first training sample |
| Windowing.SampleShapes | forecast.py:69-78 | the number of samples is `L - I - O` when that is positive and 0 otherwise; every input has `I * len(attributes)` cells and every output has `O` cells |
| Windowing.SampleInputs | forecast.py:70-74 | input cell `k` of sample `i` is row `i + k mod I` of attribute `k div I`; the chosen columns are all accepted by numpy |
| Windowing.InputCell | forecast.py:70-72 | cell `a*I + j` of training input `i` is `stockData[i+j, attributes[a]]` |
| Windowing.WindowLayout | forecast.py:70-73 | a training window holds `I` consecutive rows of each attribute, attribute-major, oldest row first |
| Windowing.SampleOutputs | forecast.py:75-78 | output cell `j` of sample `i` is the close price (column 3) of row `i + I + j`, whatever the attributes; every row read lies before the last row, and the last output is row `L - 2` |
| Windowing.ShortSeriesYieldsNoSamples | forecast.py:69 | a series of at most `I + O` rows raises no error of its own: it gives zero samples, and fails only if the forecast loop fails |
| Windowing.ForecastCell | forecast.py:61-63 | cell `a*I + i` of the forecast input is `stockData[L-I-i, attributes[a]]`, so within each block the row index strictly decreases |
| Windowing.ForecastLayout | forecast.py:61-63 | the forecast input has `I * len(attributes)` cells; cell `k` is row `L - I - k mod I` of attribute `k div I` |
| Windowing.ForecastIsReversedWindow | forecast.py:61-63 | each block of the forecast input is the training-layout window starting at row `L - 2I + 1`, read backwards |
| Windowing.ForecastInputCounterexample | forecast.py:61-63 | on a 5-row series with cell `10*row + col`, `I = 2`, `O = 1`, `attributes = [0, 3]`, there are two samples, so the split has a training and a test sample; the code's forecast input is `[30, 20, 33, 23]` (rows 3, 2 of each attribute), while the last window is `[30, 40, 33, 43]` (rows 3, 4) |
| Windowing.IntendedForecastIsLastWindow | forecast.py:61-63 | the corrected forecast input (row `-(I-i)`) equals the training-layout window of the last `I` rows |
| WindowingLoops.ForecastBlockLoop | forecast.py:62-63 | the inner forecast loop fails exactly when `I > 0` and either `L < 2I - 1` or the column is rejected; otherwise it yields the block of rows `L-I-i` |
| WindowingLoops.ForecastInputLoop | forecast.py:61-63 | the forecast loop fails exactly under the forecast failure condition; otherwise it yields the closed-form forecast input |
| WindowingLoops.WindowLoop | forecast.py:70-74 | the input half of a training iteration appends exactly the closed-form window |
| WindowingLoops.TargetLoop | forecast.py:75-78 | the output half of a training iteration fails exactly when `O > 0` and column 3 is missing; otherwise it yields the next `O` close prices |
| WindowingLoops.SplitDataLoops | forecast.py:55-82 | the nested append loops compute exactly the closed-form `SplitData`, `IndexError` cases included |
| TrainTestSplit.TrainTestSplit | forecast.py:85 | the shuffled split yields `testCount` test samples and `n - testCount` training samples, inputs and outputs equally many |
| TrainTestSplit.SplitPositions | forecast.py:85 | training sample `k` is the shuffled sample `testCount + k`, and test sample `k` is the shuffled sample `k`; inputs and outputs are indexed alike |
| TrainTestSplit.SplitKeepsPairs | forecast.py:85 | every training or test pair `(input, output)` is one original sample's input together with that same sample's output |
| TrainTestSplit.SplitCoversSamples | forecast.py:85 | every original sample ends up in the training set or in the test set |
| Network.CeilHalf | forecast.py:91 | `ceil(n / 2)` is the least whole number at least `n / 2` |
| Network.CompileModel | forecast.py:89-92 | the hidden layer has `ceil((I+O)/2)` units, so twice that is `I+O` or `I+O+1`; the output layer has `O` units |
| Network.ArchitectureMatchesWindows | forecast.py:91-92 | the declared input width `I * len(attributes)` equals the length of every training input, of the forecast input, and of the corrected forecast input; the output width equals the length of every training output |
| ForecastDates.ForecastDates | forecast.py:130-135 | there are exactly `O` dates; date `k` is the last series date plus `k + 1` days, so the dates are consecutive and strictly increasing; an empty index fails only when `O > 0` |
| Metrics.SumApe | forecast.py:34 | the sum of absolute percentage errors is non-negative |
| Metrics.VectorMape | forecast.py:32-34 | MAPE is finite exactly when there is at least one cell and no actual value is zero, and then it is non-negative |
| Metrics.CalculateMape | forecast.py:32-34 | over two same-shaped 2-D arrays, MAPE is finite exactly when some cell exists and every actual cell is non-zero, and then it is non-negative |
| Metrics.CalculateMapeZero | forecast.py:32-34 | on two same-shaped 2-D arrays with some cell and no zero actual cell, MAPE is 0 exactly when the arrays are equal |
| Metrics.CalculateMapeBound | forecast.py:32-34 | on two same-shaped 2-D arrays with some cell and no zero actual cell, if every cell is off by at most `bound` of its actual value, MAPE is finite and at most `100 * bound` percent |
| Metrics.SumApeZero | forecast.py:34 | with non-zero actual values, the error sum is zero exactly when predicted equals actual |
| Metrics.VectorMapeZero | forecast.py:32-34 | with non-zero actual values, MAPE is 0 exactly when predicted equals actual cell by cell |
| Metrics.SumApeBound | forecast.py:34 | if every cell's error is at most `bound`, the sum is at most `n * bound` |
| Metrics.VectorMapeBound | forecast.py:32-34 | if every cell is off by at most `bound` of its actual value, MAPE is at most `100 * bound` percent |
| Metrics.MapeExample | forecast.py:32-34 | actual `[100, 200]` against predicted `[110, 180]` gives MAPE 10 |

## Findings

| source | as written | input that shows it | evidently intended | confidence | as-written member | corrected member |
|---|---|---|---|---|---|---|
| forecast.py:63 | the forecast input reads row `-(inputDim+i)`, i.e. rows `L-I` down to `L-2I+1`, newest first | `L = 5` with cell `10*row + col`, `inputDim = 2`, `outputDim = 1`, `attributes = [0, 3]`: two samples, so `train_test_split` succeeds; the forecast input is `[30, 20, 33, 23]`, rows 3, 2 of each attribute, and row 4 (the newest) is never read | row `-(inputDim-i)`, i.e. the last `inputDim` rows oldest first, the layout the network was trained on | high; not executed | Windowing.ForecastInputCounterexample | Windowing.IntendedForecastIsLastWindow |

`SplitData` keeps the code's behaviour, because it models the code.
`Windowing.IntendedForecastInput` is the corrected definition. It is proved to
be the window of the last `inputDim` rows in training layout, and
`Network.ArchitectureMatchesWindows` proves the network's input width fits it.
Its own failure condition is weaker: it needs only `L >= I`, not
`L >= 2I - 1`.

## Left out

- Scaling (`normaliseData`, `unnormaliseData`, `MinMaxScaler`, forecast.py:37-52, 117-118): floating-point library calls.
- The Keras model (forecast.py:93-110, 124-128) is left out. This covers building, compiling, fitting and prediction, the training history, and the RMSE `sqrt`. All of it is library-driven floating-point training. Only the layer sizes are modelled.
- Windowing.SplitData: `inputDim` and `outputDim` are natural numbers. The dashboard passes a free number field's value (dashboards/analysis_dash.py:771). `splitData` also runs on negative whole dimensions, with other results. With `inputDim = 3`, `outputDim = -2` and 10 rows, `range(9)` reads row 10 and raises `IndexError` at forecast.py:72. With `inputDim = -1`, `outputDim = 1`, the inputs are empty and the first target is the last row, with no error. A fractional dimension builds no windows: `range` raises `TypeError`, at forecast.py:62 for a fractional `inputDim` with a non-empty attribute list, and otherwise at forecast.py:69. None of these cases is modelled.
- `setSeeds` and the `PYTHONHASHSEED` assignments (forecast.py:2, 25-29): global process state.
- The `forecastResults` data frame (forecast.py:137-138): it pairs the dates with the network's predicted closes, and those predictions are not modelled.
- TrainTestSplit.TrainTestSplit: the shuffle order and the test count are parameters, because the library's seeded permutation (`random_state=12`) is not modelled. The library raises `ValueError` when the training part would be empty: with `test_size=0.2` the test part has `ceil(0.2 * n)` samples, so this happens for fewer than two samples (zero or one). `splitData` then fails although the windowing loops succeed. That error is not modelled: `SplitData` returns `Ok` with zero or one samples.
- Metrics.CalculateMape: requires both arrays to have the same shape. numpy's broadcasting of mismatched shapes is not modelled; in the pipeline both arrays come from the same output scaler and always match.
- Metrics: values are reals, so float rounding and overflow are not modelled. Division by a zero actual value, and the mean of no cells, both map to `NonFinite` (numpy's inf/nan).
- ForecastDates.ForecastDates: dates are day numbers. Converting a calendar date to and from a day number, and any time-of-day part of the index, are not modelled.
- The unused local `pred` in `calculateMAPE` (forecast.py:33) is not modelled: the formula uses `predicted`, which holds the same values.
- Network.CompileModel: `math.ceil` is applied to a float quotient. It is modelled exactly, which matches the code for all realistic layer sizes.
- `dashboards/analysis_dash.py`, `dashboards/comparison_dash.py` and `app.py` are not part of this model. They hold page layout, callbacks, network downloads, scraping and plotting.

=== FILE: forecast_dates.dfy ===
/** The calendar dates `forecast` attaches to the predicted closes. A date is
    a day number, so adding `timedelta(days = d)` adds `d`. */
module ForecastDates {
  import opened Wrappers

  /** One date per horizon step, counted on from the series' last date:
      consecutive days, weekends and holidays not skipped. Reading the last
      date of an empty index raises IndexError (`None`), and happens only if
      the loop runs at all. */
  method ForecastDates(index: seq<int>, outputDim: nat) returns (dates: Option<seq<int>>)
    ensures dates.None? <==> outputDim > 0 && |index| == 0
    ensures dates.Some? ==> |dates.value| == outputDim
    ensures dates.Some? ==> forall k :: 0 <= k < outputDim ==> dates.value[k] == index[|index| - 1] + k + 1
    ensures dates.Some? ==> forall k :: 0 < k < outputDim ==> dates.value[k] == dates.value[k - 1] + 1
    ensures dates.Some? ==> forall k, l :: 0 <= k < l < outputDim ==> dates.value[k] < dates.value[l]
  {
    var forecastDates: seq<int> := [];
    for i := 0 to outputDim
      invariant |forecastDates| == i && (i > 0 ==> |index| > 0)
      invariant forall k :: 0 <= k < i ==> forecastDates[k] == index[|index| - 1] + k + 1
    {
      if |index| == 0 {
        return None;
      }
      forecastDates := forecastDates + [index[|index| - 1] + (i + 1)];
    }
    return Some(forecastDates);
  }
}

=== FILE: metrics.dfy ===
/** `calculateMAPE` over real numbers: the mean, over every cell of the two
    arrays, of `|(actual - predicted) / actual|`, as a percentage. Where numpy
    would produce a non-finite number (the mean of no cells, or a division by
    a zero actual) the result is `NonFinite`. */
module Metrics {
  import opened Seqs

  /** A numpy float as far as MAPE is concerned: a real, or inf/nan. */
  datatype Float = Finite(value: real) | NonFinite

  function Abs(x: real): (r: real)
    ensures r >= 0.0 && (r == x || r == -x)
  {
    if x < 0.0 then -x else x
  }

  /** The absolute percentage error of one cell, as a fraction. */
  function Ape(actual: real, predicted: real): real
    requires actual != 0.0
  {
    Abs((actual - predicted) / actual)
  }

  /** Sum of the cells' absolute percentage errors. */
  function SumApe(actual: seq<real>, predicted: seq<real>): (s: real)
    requires |actual| == |predicted| && 0.0 !in actual
    ensures s >= 0.0
  {
    if |actual| == 0 then 0.0
    else Ape(actual[0], predicted[0]) + SumApe(actual[1..], predicted[1..])
  }

  /** MAPE of two equally long vectors. */
  function VectorMape(actual: seq<real>, predicted: seq<real>): (r: Float)
    requires |actual| == |predicted|
    ensures r.Finite? <==> |actual| > 0 && 0.0 !in actual
    ensures r.Finite? ==> r.value >= 0.0
  {
    if |actual| == 0 || 0.0 in actual then NonFinite
    else Finite(SumApe(actual, predicted) / (|actual| as real) * 100.0)
  }

  /** Both arrays have the same shape (numpy's broadcasting is not modelled). */
  predicate SameShape(actual: seq<seq<real>>, predicted: seq<seq<real>>)
  {
    |actual| == |predicted| && forall i :: 0 <= i < |actual| ==> |actual[i]| == |predicted[i]|
  }

  /** Equal shapes flatten to equally long vectors. */
  lemma {:induction false} FlattenSameShape(actual: seq<seq<real>>, predicted: seq<seq<real>>)
    requires SameShape(actual, predicted)
    ensures |Flatten(actual)| == |Flatten(predicted)|
  {
    if |actual| > 0 {
      FlattenSameShape(actual[..|actual| - 1], predicted[..|predicted| - 1]);
    }
  }

  /** `calculateMAPE(actual, predicted)` on two 2-D arrays: `np.mean` runs over
      every cell. Finite exactly when some cell exists and no actual cell is
      zero, and then non-negative. */
  function CalculateMape(actual: seq<seq<real>>, predicted: seq<seq<real>>): (r: Float)
    requires SameShape(actual, predicted)
    ensures r.Finite? <==>
      (exists i :: 0 <= i < |actual| && |actual[i]| > 0) &&
      (forall i, j :: 0 <= i < |actual| && 0 <= j < |actual[i]| ==> actual[i][j] != 0.0)
    ensures r.Finite? ==> r.value >= 0.0
  {
    FlattenSameShape(actual, predicted);
    FlattenMembers(actual);
    assert |Flatten(actual)| > 0 <==> exists i :: 0 <= i < |actual| && |actual[i]| > 0 by {
      if |Flatten(actual)| > 0 {
        assert Flatten(actual)[0] in Flatten(actual);
      }
      if i :| 0 <= i < |actual| && |actual[i]| > 0 {
        assert actual[i][0] in Flatten(actual);
      }
    }
    VectorMape(Flatten(actual), Flatten(predicted))
  }

  /** A sum of non-negative errors is zero exactly when every error is. */
  lemma {:induction false} SumApeZero(actual: seq<real>, predicted: seq<real>)
    requires |actual| == |predicted| && 0.0 !in actual
    ensures SumApe(actual, predicted) == 0.0 <==> actual == predicted
  {
    if |actual| > 0 {
      SumApeZero(actual[1..], predicted[1..]);
      var e := Ape(actual[0], predicted[0]);
      if e == 0.0 {
        assert (actual[0] - predicted[0]) / actual[0] == 0.0;
        assert actual[0] - predicted[0] == 0.0;
      }
      if actual == predicted {
        assert actual[1..] == predicted[1..];
      }
    }
  }

  /** With every actual value non-zero, MAPE is zero exactly when the
      prediction equals the actual values. */
  lemma VectorMapeZero(actual: seq<real>, predicted: seq<real>)
    requires |actual| == |predicted| && |actual| > 0 && 0.0 !in actual
    ensures VectorMape(actual, predicted) == Finite(0.0) <==> actual == predicted
  {
    SumApeZero(actual, predicted);
  }

  /** When every cell's error is at most `bound` of its actual value, MAPE is
      at most `100 * bound` percent: it is a mean. */
  lemma {:induction false} SumApeBound(actual: seq<real>, predicted: seq<real>, bound: real)
    requires |actual| == |predicted| && 0.0 !in actual
    requires forall k :: 0 <= k < |actual| ==> Ape(actual[k], predicted[k]) <= bound
    ensures SumApe(actual, predicted) <= (|actual| as real) * bound
  {
    if |actual| > 0 {
      assert Ape(actual[0], predicted[0]) <= bound;
      SumApeBound(actual[1..], predicted[1..], bound);
    }
  }

  lemma VectorMapeBound(actual: seq<real>, predicted: seq<real>, bound: real)
    requires |actual| == |predicted| && |actual| > 0 && 0.0 !in actual
    requires forall k :: 0 <= k < |actual| ==> Ape(actual[k], predicted[k]) <= bound
    ensures VectorMape(actual, predicted).value <= 100.0 * bound
  {
    SumApeBound(actual, predicted, bound);
    var n := |actual| as real;
    assert SumApe(actual, predicted) / n <= bound;
  }

  /** Same-shaped arrays flatten to the same vector only when they are equal. */
  lemma {:induction false} FlattenSameShapeInjective(actual: seq<seq<real>>, predicted: seq<seq<real>>)
    requires SameShape(actual, predicted)
    ensures Flatten(actual) == Flatten(predicted) <==> actual == predicted
  {
    var n := |actual|;
    if n > 0 && Flatten(actual) == Flatten(predicted) {
      var a0, p0 := actual[..n - 1], predicted[..n - 1];
      FlattenSameShapeInjective(a0, p0);
      FlattenSameShape(a0, p0);
      var k := |Flatten(a0)|;
      assert Flatten(a0) == Flatten(actual)[..k];
      assert Flatten(p0) == Flatten(predicted)[..k];
      assert actual[n - 1] == Flatten(actual)[k..];
      assert predicted[n - 1] == Flatten(predicted)[k..];
      assert actual == a0 + [actual[n - 1]];
      assert predicted == p0 + [predicted[n - 1]];
    }
  }

  /** Position `k` of two same-shaped flattened arrays holds one cell `[i][j]`
      of each. */
  lemma {:induction false} FlattenPairs(actual: seq<seq<real>>, predicted: seq<seq<real>>, k: nat)
    requires SameShape(actual, predicted) && k < |Flatten(actual)|
    ensures |Flatten(predicted)| == |Flatten(actual)|
    ensures exists i, j ::
      0 <= i < |actual| && 0 <= j < |actual[i]| &&
      Flatten(actual)[k] == actual[i][j] && Flatten(predicted)[k] == predicted[i][j]
  {
    FlattenSameShape(actual, predicted);
    var n := |actual|;
    var a0, p0 := actual[..n - 1], predicted[..n - 1];
    FlattenSameShape(a0, p0);
    var m := |Flatten(a0)|;
    if k < m {
      FlattenPairs(a0, p0, k);
      var i, j :| 0 <= i < |a0| && 0 <= j < |a0[i]| && Flatten(a0)[k] == a0[i][j] && Flatten(p0)[k] == p0[i][j];
      assert Flatten(actual)[k] == actual[i][j] && Flatten(predicted)[k] == predicted[i][j];
    } else {
      var j := k - m;
      assert Flatten(actual)[k] == actual[n - 1][j] && Flatten(predicted)[k] == predicted[n - 1][j];
    }
  }

  /** On 2-D arrays with some cell and no zero actual cell, MAPE is zero
      exactly when the prediction equals the actual values. */
  lemma CalculateMapeZero(actual: seq<seq<real>>, predicted: seq<seq<real>>)
    requires SameShape(actual, predicted)
    requires exists i :: 0 <= i < |actual| && |actual[i]| > 0
    requires forall i, j :: 0 <= i < |actual| && 0 <= j < |actual[i]| ==> actual[i][j] != 0.0
    ensures CalculateMape(actual, predicted) == Finite(0.0) <==> actual == predicted
  {
    FlattenSameShape(actual, predicted);
    assert CalculateMape(actual, predicted) == VectorMape(Flatten(actual), Flatten(predicted));
    VectorMapeZero(Flatten(actual), Flatten(predicted));
    FlattenSameShapeInjective(actual, predicted);
  }

  /** On 2-D arrays, when every cell is off by at most `bound` of its actual
      value, MAPE is finite and at most `100 * bound` percent. */
  lemma CalculateMapeBound(actual: seq<seq<real>>, predicted: seq<seq<real>>, bound: real)
    requires SameShape(actual, predicted)
    requires exists i :: 0 <= i < |actual| && |actual[i]| > 0
    requires forall i, j :: 0 <= i < |actual| && 0 <= j < |actual[i]| ==> actual[i][j] != 0.0
    requires forall i, j :: 0 <= i < |actual| && 0 <= j < |actual[i]| ==> Ape(actual[i][j], predicted[i][j]) <= bound
    ensures CalculateMape(actual, predicted).Finite?
    ensures CalculateMape(actual, predicted).value <= 100.0 * bound
  {
    var fa, fp := Flatten(actual), Flatten(predicted);
    FlattenSameShape(actual, predicted);
    assert CalculateMape(actual, predicted) == VectorMape(fa, fp);
    assert |fa| > 0 && 0.0 !in fa;
    forall k | 0 <= k < |fa|
      ensures Ape(fa[k], fp[k]) <= bound
    {
      FlattenPairs(actual, predicted, k);
    }
    VectorMapeBound(fa, fp, bound);
  }

  /** actual = [100, 200], predicted = [110, 180]: both cells are 10% off. */
  lemma MapeExample()
    ensures CalculateMape([[100.0], [200.0]], [[110.0], [180.0]]) == Finite(10.0)
  {
    var actual, predicted := [[100.0], [200.0]], [[110.0], [180.0]];
    assert Flatten(actual[..1]) == [100.0];
    assert Flatten(actual) == [100.0, 200.0];
    assert Flatten(predicted[..1]) == [110.0];
    assert Flatten(predicted) == [110.0, 180.0];
    assert Ape(100.0, 110.0) == 0.1;
    assert Ape(200.0, 180.0) == 0.1;
    assert SumApe([200.0], [180.0]) == 0.1;
    assert SumApe([100.0, 200.0], [110.0, 180.0]) == 0.2 by {
      assert [100.0, 200.0][1..] == [200.0];
      assert [110.0, 180.0][1..] == [180.0];
    }
  }
}

=== FILE: network.dfy ===
/** The layer sizes `compileModel` gives the regression network: only the
    shape arithmetic; weights, training and prediction are not modelled. */
module Network {
  import opened NumPy
  import opened Seqs
  import opened Windowing

  /** A dense network with one hidden layer. */
  datatype Architecture = Architecture(inputWidth: nat, hiddenUnits: nat, outputUnits: nat)

  /** `math.ceil(n / 2)` with true division: the least whole number of units
      that is at least half of `n`. */
  function CeilHalf(n: nat): (h: nat)
    ensures (h as real) >= (n as real) / 2.0
    ensures (h as real) - 1.0 < (n as real) / 2.0
  {
    (n + 1) / 2
  }

  /** Layer sizes: `inputDim * len(attributes)` inputs, `ceil((inputDim +
      outputDim) / 2)` hidden units, `outputDim` linear outputs. */
  function CompileModel(inputDim: nat, outputDim: nat, attributes: seq<int>): (net: Architecture)
    ensures net.outputUnits == outputDim
    ensures 2 * net.hiddenUnits == inputDim + outputDim || 2 * net.hiddenUnits == inputDim + outputDim + 1
  {
    Architecture(inputDim * |attributes|, CeilHalf(inputDim + outputDim), outputDim)
  }

  /** The network's declared input width is the length of every training input
      and of the forecast input `splitData` builds (and of the corrected
      forecast input), and its output width is the length of every training
      output. */
  lemma ArchitectureMatchesWindows<T>(m: Matrix<T>, inputDim: nat, outputDim: nat, attributes: seq<int>)
    requires m.WellFormed() && SplitData(m, inputDim, outputDim, attributes).Ok?
    ensures var net := CompileModel(inputDim, outputDim, attributes);
      var w := SplitData(m, inputDim, outputDim, attributes).value;
      && (forall i :: 0 <= i < |w.inputs| ==> |w.inputs[i]| == net.inputWidth)
      && (forall i :: 0 <= i < |w.outputs| ==> |w.outputs[i]| == net.outputUnits)
      && |w.forecastInput| == net.inputWidth
    ensures inputDim > 0 && |attributes| > 0 ==> inputDim <= |m.rows|
    ensures inputDim > 0 ==> ValidColumns(m.width, attributes)
    ensures |IntendedForecastInput(m, inputDim, attributes)| == CompileModel(inputDim, outputDim, attributes).inputWidth
  {
    SampleShapes(m, inputDim, outputDim, attributes);
    ForecastLayout(m, inputDim, attributes);
    assert inputDim > 0 && |attributes| > 0 ==> !ForecastFails(m, inputDim, attributes);
    FlattenLength(seq(|attributes|, a requires 0 <= a < |attributes| =>
      IntendedForecastBlock(m, inputDim, attributes[a])), inputDim);
  }
}

=== FILE: numpy_index.dfy ===
/** The part of numpy's array semantics the windowing code relies on: a
    rectangular 2-D array and element access `m[row, col]`, where a negative
    index counts from the end and an index outside the axis raises IndexError. */
module NumPy {
  import opened Wrappers

  /** A 2-D array of `|rows|` time steps, each holding `width` cells. The width
      is kept apart from the rows so that an empty series still has columns. */
  datatype Matrix<T> = Matrix(width: nat, rows: seq<seq<T>>)
  {
    predicate WellFormed()
    {
      forall r :: 0 <= r < |rows| ==> |rows[r]| == width
    }
  }

  /** Index `k` is accepted on an axis of length `n`. */
  predicate InBounds(n: nat, k: int)
  {
    -(n as int) <= k < n
  }

  /** The position numpy reads for an accepted index: the index itself, or
      counted back from the end when negative; i.e. `k` modulo `n`. */
  function Wrap(n: nat, k: int): (r: nat)
    requires InBounds(n, k)
    ensures r < n && r == k % n
    ensures r == k || r == k + n
  {
    if k < 0 then n + k else k
  }

  /** `m[row, col]`; `None` stands for numpy's IndexError. */
  function At<T>(m: Matrix<T>, row: int, col: int): (x: Option<T>)
    requires m.WellFormed()
    ensures x.Some? <==> InBounds(|m.rows|, row) && InBounds(m.width, col)
    ensures x.Some? ==> x.value == m.rows[row % |m.rows|][col % m.width]
    ensures x.Some? && row < 0 ==> x.value == m.rows[|m.rows| + row][col % m.width]
  {
    if InBounds(|m.rows|, row) && InBounds(m.width, col) then
      Some(m.rows[Wrap(|m.rows|, row)][Wrap(m.width, col)])
    else
      None
  }
}

=== FILE: seqs.dfy ===
/** Sequence helpers shared by the windowing and metric modules. */
module Seqs {

  /** Concatenation of a sequence of blocks, folded from the left, so that one
      more block appends its cells at the end (the shape of an append loop). */
  function Flatten<T>(blocks: seq<seq<T>>): seq<T>
  {
    if |blocks| == 0 then [] else Flatten(blocks[..|blocks| - 1]) + blocks[|blocks| - 1]
  }

  /** Multiplying by a natural number keeps the order. */
  lemma MulMonotone(a: int, b: int, w: nat)
    requires a <= b
    ensures a * w <= b * w
  {
    var d := b - a;
    assert b * w == a * w + d * w;
  }

  /** Every block of `w` cells adds `w` to the length. */
  lemma {:induction false} FlattenLength<T>(blocks: seq<seq<T>>, w: nat)
    requires forall a :: 0 <= a < |blocks| ==> |blocks[a]| == w
    ensures |Flatten(blocks)| == |blocks| * w
  {
    if |blocks| > 0 {
      FlattenLength(blocks[..|blocks| - 1], w);
      assert |blocks| * w == (|blocks| - 1) * w + w;
    }
  }

  /** When every block has `w` cells, cell `j` of block `a` sits at position
      `a * w + j` of the flattened sequence. */
  lemma {:induction false} FlattenAt<T>(blocks: seq<seq<T>>, w: nat, a: nat, j: nat)
    requires forall b :: 0 <= b < |blocks| ==> |blocks[b]| == w
    requires a < |blocks| && j < w
    ensures a * w + j < |Flatten(blocks)| && Flatten(blocks)[a * w + j] == blocks[a][j]
  {
    var n := |blocks|;
    var init := blocks[..n - 1];
    FlattenLength(init, w);
    assert |Flatten(blocks)| == (n - 1) * w + w;
    if a < n - 1 {
      MulMonotone(a + 1, n - 1, w);
      assert (a + 1) * w == a * w + w;
      FlattenAt(init, w, a, j);
    } else {
      assert a * w + j == |Flatten(init)| + j;
    }
  }

  /** A value occurs in the flattened sequence exactly when it is a cell of some block. */
  lemma {:induction false} FlattenMembers<T>(blocks: seq<seq<T>>)
    ensures forall x :: x in Flatten(blocks) <==>
      exists a, j :: 0 <= a < |blocks| && 0 <= j < |blocks[a]| && blocks[a][j] == x
  {
    var n := |blocks|;
    if n > 0 {
      var init := blocks[..n - 1];
      FlattenMembers(init);
      forall x
        ensures x in Flatten(blocks) <==>
          exists a, j :: 0 <= a < n && 0 <= j < |blocks[a]| && blocks[a][j] == x
      {
        if x in Flatten(blocks) {
          if x in Flatten(init) {
            var a, j :| 0 <= a < |init| && 0 <= j < |init[a]| && init[a][j] == x;
            assert blocks[a][j] == x;
          } else {
            assert x in blocks[n - 1];
            var j :| 0 <= j < |blocks[n - 1]| && blocks[n - 1][j] == x;
          }
        }
        if exists a, j :: 0 <= a < n && 0 <= j < |blocks[a]| && blocks[a][j] == x {
          var a, j :| 0 <= a < n && 0 <= j < |blocks[a]| && blocks[a][j] == x;
          if a < n - 1 {
            assert init[a][j] == x;
          } else {
            assert blocks[n - 1][j] in blocks[n - 1];
          }
        }
      }
    }
  }
}

=== FILE: train_test_split.dfy ===
/** `train_test_split(inputs, outputs, test_size=0.2, random_state=12)` as far
    as the pairing of samples goes. The seeded shuffle is a parameter: any
    permutation of the sample positions; the first `testCount` shuffled
    samples form the test set and the rest the training set. */
module TrainTestSplit {

  /** `0, 1, ..., n - 1`. */
  function Positions(n: nat): (p: seq<nat>)
    ensures |p| == n && forall k :: 0 <= k < n ==> p[k] == k
  {
    seq(n, k requires 0 <= k < n => k)
  }

  /** `order` lists every sample position exactly once. */
  predicate IsPermutation(order: seq<nat>, n: nat)
  {
    multiset(order) == multiset(Positions(n))
  }

  /** The samples at the given positions, in that order. */
  function Pick<T>(samples: seq<T>, order: seq<nat>): (picked: seq<T>)
    requires forall k :: 0 <= k < |order| ==> order[k] < |samples|
    ensures |picked| == |order|
  {
    seq(|order|, k requires 0 <= k < |order| => samples[order[k]])
  }

  datatype Split<T> = Split(trainInputs: seq<seq<T>>, testInputs: seq<seq<T>>,
                            trainOutputs: seq<seq<T>>, testOutputs: seq<seq<T>>)

  /** Every position in a permutation is a sample position. */
  lemma PermutationInRange(order: seq<nat>, n: nat)
    requires IsPermutation(order, n)
    ensures forall k :: 0 <= k < |order| ==> order[k] < n
  {
    forall k | 0 <= k < |order|
      ensures order[k] < n
    {
      assert order[k] in multiset(order);
      assert order[k] in Positions(n);
    }
  }

  function TrainTestSplit<T>(inputs: seq<seq<T>>, outputs: seq<seq<T>>, order: seq<nat>, testCount: nat): (s: Split<T>)
    requires |inputs| == |outputs| && IsPermutation(order, |inputs|) && testCount <= |inputs|
    ensures |s.testInputs| == |s.testOutputs| == testCount
    ensures |s.trainInputs| == |s.trainOutputs| == |inputs| - testCount
  {
    PermutationInRange(order, |inputs|);
    assert |order| == |inputs| by {
      assert |multiset(order)| == |multiset(Positions(|inputs|))|;
    }
    Split(Pick(inputs, order[testCount..]), Pick(inputs, order[..testCount]),
          Pick(outputs, order[testCount..]), Pick(outputs, order[..testCount]))
  }

  /** Training sample `k` is the shuffled sample `testCount + k`, test sample
      `k` the shuffled sample `k`, each with its own input and output. */
  lemma SplitPositions<T>(inputs: seq<seq<T>>, outputs: seq<seq<T>>, order: seq<nat>, testCount: nat)
    requires |inputs| == |outputs| && IsPermutation(order, |inputs|) && testCount <= |inputs|
    ensures |order| == |inputs| && forall k :: 0 <= k < |order| ==> order[k] < |inputs|
    ensures var s := TrainTestSplit(inputs, outputs, order, testCount);
      forall k :: 0 <= k < |s.trainInputs| ==>
        s.trainInputs[k] == inputs[order[testCount + k]] && s.trainOutputs[k] == outputs[order[testCount + k]]
    ensures var s := TrainTestSplit(inputs, outputs, order, testCount);
      forall k :: 0 <= k < |s.testInputs| ==>
        s.testInputs[k] == inputs[order[k]] && s.testOutputs[k] == outputs[order[k]]
  {
    PermutationInRange(order, |inputs|);
    assert |multiset(order)| == |multiset(Positions(|inputs|))|;
  }

  /** The split keeps every input with its own output. */
  lemma SplitKeepsPairs<T>(inputs: seq<seq<T>>, outputs: seq<seq<T>>, order: seq<nat>, testCount: nat)
    requires |inputs| == |outputs| && IsPermutation(order, |inputs|) && testCount <= |inputs|
    ensures var s := TrainTestSplit(inputs, outputs, order, testCount);
      forall k :: 0 <= k < |s.trainInputs| ==>
        exists j :: 0 <= j < |inputs| && s.trainInputs[k] == inputs[j] && s.trainOutputs[k] == outputs[j]
    ensures var s := TrainTestSplit(inputs, outputs, order, testCount);
      forall k :: 0 <= k < |s.testInputs| ==>
        exists j :: 0 <= j < |inputs| && s.testInputs[k] == inputs[j] && s.testOutputs[k] == outputs[j]
  {
    var s := TrainTestSplit(inputs, outputs, order, testCount);
    SplitPositions(inputs, outputs, order, testCount);
    forall k | 0 <= k < |s.trainInputs|
      ensures exists j :: 0 <= j < |inputs| && s.trainInputs[k] == inputs[j] && s.trainOutputs[k] == outputs[j]
    {
      var j := order[testCount + k];
      assert s.trainInputs[k] == inputs[j] && s.trainOutputs[k] == outputs[j];
    }
    forall k | 0 <= k < |s.testInputs|
      ensures exists j :: 0 <= j < |inputs| && s.testInputs[k] == inputs[j] && s.testOutputs[k] == outputs[j]
    {
      var j := order[k];
      assert s.testInputs[k] == inputs[j] && s.testOutputs[k] == outputs[j];
    }
    assert forall k :: 0 <= k < |s.trainInputs| ==>
      exists j :: 0 <= j < |inputs| && s.trainInputs[k] == inputs[j] && s.trainOutputs[k] == outputs[j];
    assert forall k :: 0 <= k < |s.testInputs| ==>
      exists j :: 0 <= j < |inputs| && s.testInputs[k] == inputs[j] && s.testOutputs[k] == outputs[j];
  }

  /** `(input, output)` is a training pair or a test pair of the split. */
  ghost predicate HasPair<T>(s: Split<T>, input: seq<T>, output: seq<T>)
  {
    || (exists k :: 0 <= k < |s.trainInputs| && k < |s.trainOutputs| && s.trainInputs[k] == input && s.trainOutputs[k] == output)
    || (exists k :: 0 <= k < |s.testInputs| && k < |s.testOutputs| && s.testInputs[k] == input && s.testOutputs[k] == output)
  }

  /** Every sample lands in the training set or in the test set, with its own output. */
  lemma SplitCoversSamples<T>(inputs: seq<seq<T>>, outputs: seq<seq<T>>, order: seq<nat>, testCount: nat)
    requires |inputs| == |outputs| && IsPermutation(order, |inputs|) && testCount <= |inputs|
    ensures forall j :: 0 <= j < |inputs| ==>
      HasPair(TrainTestSplit(inputs, outputs, order, testCount), inputs[j], outputs[j])
  {
    var s := TrainTestSplit(inputs, outputs, order, testCount);
    SplitPositions(inputs, outputs, order, testCount);
    forall j | 0 <= j < |inputs|
      ensures HasPair(s, inputs[j], outputs[j])
    {
      assert Positions(|inputs|)[j] == j;
      assert j in multiset(order);
      var p :| 0 <= p < |order| && order[p] == j;
      if p < testCount {
        assert s.testInputs[p] == inputs[j] && s.testOutputs[p] == outputs[j];
      } else {
        var k := p - testCount;
        assert s.trainInputs[k] == inputs[j] && s.trainOutputs[k] == outputs[j];
      }
    }
  }
}

=== FILE: windowing.dfy ===
/** The sliding-window builder `splitData` of forecast.py, up to (not
    including) the train/test split: training input vectors, training output
    vectors and the single forecast input vector, built from a row-major price
    matrix. Values are never inspected, so the cell type is a parameter. */
module Windowing {
  import opened Wrappers
  import opened NumPy
  import opened Seqs

  /** The target column: the close price, whatever the chosen attributes. */
  const CloseColumn: nat := 3

  /** The outcome of `splitData`: the vectors, or numpy's IndexError. */
  datatype Result<T> = Ok(value: T) | IndexError

  /** Training inputs and outputs (paired by position) and the forecast input. */
  datatype Windows<T> = Windows(inputs: seq<seq<T>>, outputs: seq<seq<T>>, forecastInput: seq<T>)

  /** Every chosen attribute names a column numpy accepts. */
  predicate ValidColumns(width: nat, attributes: seq<int>)
  {
    forall a :: 0 <= a < |attributes| ==> InBounds(width, attributes[a])
  }

  /** Iterations of `range(len(stockData) - inputDim - outputDim)`: an empty
      range when the difference is not positive. */
  function SampleCount(height: nat, inputDim: nat, outputDim: nat): nat
  {
    if height - inputDim - outputDim > 0 then height - inputDim - outputDim else 0
  }

  /** The forecast loop reads row `-(inputDim + i)` of every attribute column,
      for `i < inputDim`; it raises IndexError when the deepest of those rows
      is before the first row or when a column is rejected. */
  predicate ForecastFails<T>(m: Matrix<T>, inputDim: nat, attributes: seq<int>)
  {
    && inputDim > 0
    && |attributes| > 0
    && (|m.rows| < 2 * inputDim - 1 || !ValidColumns(m.width, attributes))
  }

  /** Once the forecast loop has passed, the training loop can fail only on the
      close column: its input reads use rows inside the series and columns the
      forecast loop has already read (none at all if `inputDim` is 0). */
  predicate TrainingFails<T>(m: Matrix<T>, inputDim: nat, outputDim: nat)
  {
    SampleCount(|m.rows|, inputDim, outputDim) > 0 && outputDim > 0 && m.width <= CloseColumn
  }

  /** Rows `start .. start + inputDim - 1` of one attribute column, oldest first. */
  function Block<T>(m: Matrix<T>, start: nat, inputDim: nat, attribute: int): seq<T>
    requires m.WellFormed() && start + inputDim <= |m.rows|
    requires inputDim > 0 ==> InBounds(m.width, attribute)
  {
    seq(inputDim, j requires 0 <= j < inputDim => m.rows[start + j][Wrap(m.width, attribute)])
  }

  /** A training input vector: attribute-major, then by time offset. */
  function Window<T>(m: Matrix<T>, start: nat, inputDim: nat, attributes: seq<int>): seq<T>
    requires m.WellFormed() && start + inputDim <= |m.rows|
    requires inputDim > 0 ==> ValidColumns(m.width, attributes)
  {
    Flatten(seq(|attributes|, a requires 0 <= a < |attributes| => Block(m, start, inputDim, attributes[a])))
  }

  /** A training output vector: the next `outputDim` close prices from `start`. */
  function Target<T>(m: Matrix<T>, start: nat, outputDim: nat): (t: seq<T>)
    requires m.WellFormed() && start + outputDim <= |m.rows|
    requires outputDim > 0 ==> m.width > CloseColumn
    ensures |t| == outputDim
  {
    seq(outputDim, j requires 0 <= j < outputDim => m.rows[start + j][CloseColumn])
  }

  /** One attribute's part of the forecast input, in the order the code reads
      it: rows `-(inputDim + i)` for `i = 0 .. inputDim - 1`. */
  function ForecastBlock<T>(m: Matrix<T>, inputDim: nat, attribute: int): seq<T>
    requires m.WellFormed()
    requires inputDim > 0 ==> |m.rows| >= 2 * inputDim - 1 && InBounds(m.width, attribute)
  {
    seq(inputDim, i requires 0 <= i < inputDim =>
      m.rows[Wrap(|m.rows|, -(inputDim + i))][Wrap(m.width, attribute)])
  }

  /** The forecast input vector, attribute-major like the training inputs. */
  function ForecastInput<T>(m: Matrix<T>, inputDim: nat, attributes: seq<int>): seq<T>
    requires m.WellFormed() && !ForecastFails(m, inputDim, attributes)
  {
    Flatten(seq(|attributes|, a requires 0 <= a < |attributes| => ForecastBlock(m, inputDim, attributes[a])))
  }

  /** `splitData` before `train_test_split`: the forecast loop first, then one
      training sample per start row. A series too short for any sample is not
      an error: it yields no samples. */
  function SplitData<T>(m: Matrix<T>, inputDim: nat, outputDim: nat, attributes: seq<int>): (r: Result<Windows<T>>)
    requires m.WellFormed()
    ensures r.Ok? ==> |r.value.inputs| == |r.value.outputs| == SampleCount(|m.rows|, inputDim, outputDim)
    ensures r.Ok? ==> forall i :: 0 <= i < |r.value.outputs| ==> |r.value.outputs[i]| == outputDim
    ensures |m.rows| <= inputDim + outputDim && r.Ok? ==> r.value.inputs == []
  {
    if ForecastFails(m, inputDim, attributes) || TrainingFails(m, inputDim, outputDim) then
      IndexError
    else
      var n := SampleCount(|m.rows|, inputDim, outputDim);
      var outputs := seq(n, i requires 0 <= i < n => Target(m, i + inputDim, outputDim));
      assert forall i :: 0 <= i < n ==> outputs[i] == Target(m, i + inputDim, outputDim);
      Ok(Windows(seq(n, i requires 0 <= i < n => Window(m, i, inputDim, attributes)), outputs,
                 ForecastInput(m, inputDim, attributes)))
  }


  /** Position `k < inputDim * n` splits into block `k / inputDim < n` and
      offset `k % inputDim`. */
  lemma SplitPosition(k: nat, inputDim: nat, n: nat)
    requires inputDim > 0 && k < inputDim * n
    ensures k / inputDim < n && k == (k / inputDim) * inputDim + k % inputDim
  {
    if k / inputDim >= n {
      MulMonotone(n, k / inputDim, inputDim);
      assert false;
    }
  }

  /** Cell `a * inputDim + j` of a window is row `start + j` of attribute `a`. */
  lemma WindowCell<T>(m: Matrix<T>, start: nat, inputDim: nat, attributes: seq<int>, a: nat, j: nat)
    requires m.WellFormed() && start + inputDim <= |m.rows|
    requires inputDim > 0 ==> ValidColumns(m.width, attributes)
    requires a < |attributes| && j < inputDim
    ensures |Window(m, start, inputDim, attributes)| == inputDim * |attributes|
    ensures a * inputDim + j < inputDim * |attributes|
    ensures Window(m, start, inputDim, attributes)[a * inputDim + j]
      == m.rows[start + j][Wrap(m.width, attributes[a])]
  {
    var blocks := seq(|attributes|, b requires 0 <= b < |attributes| => Block(m, start, inputDim, attributes[b]));
    FlattenLength(blocks, inputDim);
    FlattenAt(blocks, inputDim, a, j);
  }

  /** `v` holds, attribute-major, rows `start .. start + inputDim - 1` of every
      attribute column: cell `k` is row `start + k % inputDim` of attribute
      `k / inputDim`. */
  ghost predicate IsWindowLayout<T>(v: seq<T>, m: Matrix<T>, start: nat, inputDim: nat, attributes: seq<int>)
    requires m.WellFormed() && start + inputDim <= |m.rows|
    requires inputDim > 0 ==> ValidColumns(m.width, attributes)
  {
    && |v| == inputDim * |attributes|
    && (inputDim > 0 ==> forall k :: 0 <= k < |v| ==>
          k / inputDim < |attributes| &&
          v[k] == m.rows[start + k % inputDim][Wrap(m.width, attributes[k / inputDim])])
  }

  /** `WindowCell` at a flat position `k`. */
  lemma WindowPosition<T>(m: Matrix<T>, start: nat, inputDim: nat, attributes: seq<int>, k: nat)
    requires m.WellFormed() && start + inputDim <= |m.rows|
    requires inputDim > 0 && ValidColumns(m.width, attributes)
    requires k < inputDim * |attributes|
    ensures k / inputDim < |attributes|
    ensures |Window(m, start, inputDim, attributes)| == inputDim * |attributes|
    ensures Window(m, start, inputDim, attributes)[k]
      == m.rows[start + k % inputDim][Wrap(m.width, attributes[k / inputDim])]
  {
    var a, j := k / inputDim, k % inputDim;
    SplitPosition(k, inputDim, |attributes|);
    WindowCell(m, start, inputDim, attributes, a, j);
    assert k == a * inputDim + j;
  }

  /** Index form of `WindowCell`. */
  lemma WindowLayout<T>(m: Matrix<T>, start: nat, inputDim: nat, attributes: seq<int>)
    requires m.WellFormed() && start + inputDim <= |m.rows|
    requires inputDim > 0 ==> ValidColumns(m.width, attributes)
    ensures IsWindowLayout(Window(m, start, inputDim, attributes), m, start, inputDim, attributes)
  {
    var v := Window(m, start, inputDim, attributes);
    var blocks := seq(|attributes|, b requires 0 <= b < |attributes| => Block(m, start, inputDim, attributes[b]));
    FlattenLength(blocks, inputDim);
    assert |v| == inputDim * |attributes|;
    if inputDim > 0 {
      forall k | 0 <= k < |v|
        ensures k / inputDim < |attributes|
        ensures v[k] == m.rows[start + k % inputDim][Wrap(m.width, attributes[k / inputDim])]
      {
        WindowPosition(m, start, inputDim, attributes, k);
      }
    }
  }

  /** Training samples: one per start row `i < L - inputDim - outputDim`,
      each input of `inputDim * |attributes|` cells and each output of
      `outputDim` cells. */
  lemma SampleShapes<T>(m: Matrix<T>, inputDim: nat, outputDim: nat, attributes: seq<int>)
    requires m.WellFormed() && SplitData(m, inputDim, outputDim, attributes).Ok?
    ensures var w := SplitData(m, inputDim, outputDim, attributes).value;
      && |w.inputs| == SampleCount(|m.rows|, inputDim, outputDim)
      && |w.outputs| == |w.inputs|
      && (forall i :: 0 <= i < |w.inputs| ==> |w.inputs[i]| == inputDim * |attributes|)
      && (forall i :: 0 <= i < |w.outputs| ==> |w.outputs[i]| == outputDim)
  {
    var w := SplitData(m, inputDim, outputDim, attributes).value;
    forall i | 0 <= i < SampleCount(|m.rows|, inputDim, outputDim)
      ensures |w.inputs[i]| == inputDim * |attributes| && |w.outputs[i]| == outputDim
    {
      SampleIs(m, inputDim, outputDim, attributes, i);
      WindowLayout(m, i, inputDim, attributes);
      assert |Window(m, i, inputDim, attributes)| == inputDim * |attributes|;
    }
  }

  /** Every training input is laid out attribute-major, then by time offset:
      input cell `k` of sample `i` is row `i + k % inputDim` of attribute
      `k / inputDim`. */
  lemma SampleInputs<T>(m: Matrix<T>, inputDim: nat, outputDim: nat, attributes: seq<int>)
    requires m.WellFormed() && SplitData(m, inputDim, outputDim, attributes).Ok?
    ensures inputDim > 0 ==> ValidColumns(m.width, attributes)
    ensures var w := SplitData(m, inputDim, outputDim, attributes).value;
      forall i :: 0 <= i < |w.inputs| ==>
        i + inputDim <= |m.rows| && IsWindowLayout(w.inputs[i], m, i, inputDim, attributes)
  {
    var w := SplitData(m, inputDim, outputDim, attributes).value;
    forall i | 0 <= i < |w.inputs|
      ensures i + inputDim <= |m.rows| && IsWindowLayout(w.inputs[i], m, i, inputDim, attributes)
    {
      SampleIs(m, inputDim, outputDim, attributes, i);
      WindowLayout(m, i, inputDim, attributes);
    }
  }

  /** Output cell `j` of sample `i` is the close price of row `i + inputDim + j`,
      whatever the attributes. Every row a sample reads lies before the last
      row: the last sample's last output is the close price of row `L - 2`. */
  lemma SampleOutputs<T>(m: Matrix<T>, inputDim: nat, outputDim: nat, attributes: seq<int>)
    requires m.WellFormed() && SplitData(m, inputDim, outputDim, attributes).Ok?
    ensures outputDim > 0 && SampleCount(|m.rows|, inputDim, outputDim) > 0 ==> m.width > CloseColumn
    ensures var w := SplitData(m, inputDim, outputDim, attributes).value;
      && |w.outputs| == SampleCount(|m.rows|, inputDim, outputDim)
      && (forall i :: 0 <= i < |w.outputs| ==> |w.outputs[i]| == outputDim)
    ensures var w := SplitData(m, inputDim, outputDim, attributes).value;
      forall i, j :: 0 <= i < |w.outputs| && 0 <= j < outputDim ==>
        i + inputDim + j < |m.rows| - 1 && w.outputs[i][j] == m.rows[i + inputDim + j][CloseColumn]
    ensures var w := SplitData(m, inputDim, outputDim, attributes).value;
      |w.outputs| > 0 && outputDim > 0 ==>
        w.outputs[|w.outputs| - 1][outputDim - 1] == m.rows[|m.rows| - 2][CloseColumn]
  {
    var w := SplitData(m, inputDim, outputDim, attributes).value;
    SampleShapes(m, inputDim, outputDim, attributes);
    forall i | 0 <= i < |w.outputs|
      ensures forall j :: 0 <= j < outputDim ==>
        i + inputDim + j < |m.rows| - 1 && w.outputs[i][j] == m.rows[i + inputDim + j][CloseColumn]
    {
      SampleIs(m, inputDim, outputDim, attributes, i);
    }
  }

  /** Sample `i` is the window at row `i` and the targets right after it. */
  lemma SampleIs<T>(m: Matrix<T>, inputDim: nat, outputDim: nat, attributes: seq<int>, i: nat)
    requires m.WellFormed() && SplitData(m, inputDim, outputDim, attributes).Ok?
    requires i < SampleCount(|m.rows|, inputDim, outputDim)
    ensures inputDim > 0 ==> ValidColumns(m.width, attributes)
    ensures outputDim > 0 ==> m.width > CloseColumn
    ensures |SplitData(m, inputDim, outputDim, attributes).value.inputs| == SampleCount(|m.rows|, inputDim, outputDim)
    ensures SplitData(m, inputDim, outputDim, attributes).value.inputs[i] == Window(m, i, inputDim, attributes)
    ensures |SplitData(m, inputDim, outputDim, attributes).value.outputs| == SampleCount(|m.rows|, inputDim, outputDim)
    ensures SplitData(m, inputDim, outputDim, attributes).value.outputs[i] == Target(m, i + inputDim, outputDim)
  {
  }

  /** Cell `a * inputDim + j` of training input `i` is row `i + j` of attribute `a`. */
  lemma InputCell<T>(m: Matrix<T>, inputDim: nat, outputDim: nat, attributes: seq<int>, i: nat, a: nat, j: nat)
    requires m.WellFormed() && SplitData(m, inputDim, outputDim, attributes).Ok?
    requires i < SampleCount(|m.rows|, inputDim, outputDim) && a < |attributes| && j < inputDim
    ensures InBounds(m.width, attributes[a])
    ensures var v := SplitData(m, inputDim, outputDim, attributes).value.inputs[i];
      a * inputDim + j < |v| && v[a * inputDim + j] == m.rows[i + j][Wrap(m.width, attributes[a])]
  {
    assert SplitData(m, inputDim, outputDim, attributes).value.inputs[i] == Window(m, i, inputDim, attributes);
    WindowCell(m, i, inputDim, attributes, a, j);
  }

  /** Cell `a * inputDim + i` of the forecast input is row `L - inputDim - i` of
      attribute `a`: within each attribute block the rows strictly decrease,
      from `L - inputDim` down to `L - 2 * inputDim + 1`. */
  lemma ForecastCell<T>(m: Matrix<T>, inputDim: nat, attributes: seq<int>, a: nat, i: nat)
    requires m.WellFormed() && !ForecastFails(m, inputDim, attributes)
    requires a < |attributes| && i < inputDim
    ensures |m.rows| - inputDim - i >= 0 && InBounds(m.width, attributes[a])
    ensures |ForecastInput(m, inputDim, attributes)| == inputDim * |attributes|
    ensures a * inputDim + i < inputDim * |attributes|
    ensures ForecastInput(m, inputDim, attributes)[a * inputDim + i]
      == m.rows[|m.rows| - inputDim - i][Wrap(m.width, attributes[a])]
  {
    var blocks := seq(|attributes|, b requires 0 <= b < |attributes| => ForecastBlock(m, inputDim, attributes[b]));
    FlattenLength(blocks, inputDim);
    FlattenAt(blocks, inputDim, a, i);
    assert Wrap(|m.rows|, -(inputDim + i)) == |m.rows| - inputDim - i;
  }

  /** Index form of `ForecastCell`: the forecast input has one cell per
      attribute and offset, and cell `k` is row `L - inputDim - k % inputDim`
      of attribute `k / inputDim`. */
  lemma ForecastLayout<T>(m: Matrix<T>, inputDim: nat, attributes: seq<int>)
    requires m.WellFormed() && !ForecastFails(m, inputDim, attributes)
    ensures |ForecastInput(m, inputDim, attributes)| == inputDim * |attributes|
    ensures inputDim > 0 ==> forall k :: 0 <= k < inputDim * |attributes| ==>
      k / inputDim < |attributes| && |m.rows| - inputDim - k % inputDim >= 0 &&
      ForecastInput(m, inputDim, attributes)[k]
        == m.rows[|m.rows| - inputDim - k % inputDim][Wrap(m.width, attributes[k / inputDim])]
  {
    var blocks := seq(|attributes|, b requires 0 <= b < |attributes| => ForecastBlock(m, inputDim, attributes[b]));
    FlattenLength(blocks, inputDim);
    if inputDim > 0 {
      forall k | 0 <= k < inputDim * |attributes|
        ensures k / inputDim < |attributes| && |m.rows| - inputDim - k % inputDim >= 0
        ensures ForecastInput(m, inputDim, attributes)[k]
          == m.rows[|m.rows| - inputDim - k % inputDim][Wrap(m.width, attributes[k / inputDim])]
      {
        SplitPosition(k, inputDim, |attributes|);
        ForecastCell(m, inputDim, attributes, k / inputDim, k % inputDim);
      }
    }
  }

  /** Each attribute block of the forecast input is the corresponding block of
      the training-layout window starting at row `L - 2 * inputDim + 1`, read
      backwards. */
  lemma ForecastIsReversedWindow<T>(m: Matrix<T>, inputDim: nat, attributes: seq<int>, a: nat, i: nat)
    requires m.WellFormed() && !ForecastFails(m, inputDim, attributes)
    requires a < |attributes| && i < inputDim
    ensures |m.rows| - 2 * inputDim + 1 >= 0 && ValidColumns(m.width, attributes)
    ensures var start := |m.rows| - 2 * inputDim + 1;
      var v := ForecastInput(m, inputDim, attributes);
      var w := Window(m, start, inputDim, attributes);
      a * inputDim + i < |v| && a * inputDim + (inputDim - 1 - i) < |w| &&
      v[a * inputDim + i] == w[a * inputDim + (inputDim - 1 - i)]
  {
    var start := |m.rows| - 2 * inputDim + 1;
    ForecastCell(m, inputDim, attributes, a, i);
    WindowCell(m, start, inputDim, attributes, a, inputDim - 1 - i);
  }

  /** A series of at most `inputDim + outputDim` rows is not an error: it yields
      no training samples (only the forecast loop can still fail). */
  lemma ShortSeriesYieldsNoSamples<T>(m: Matrix<T>, inputDim: nat, outputDim: nat, attributes: seq<int>)
    requires m.WellFormed() && |m.rows| <= inputDim + outputDim
    ensures var r := SplitData(m, inputDim, outputDim, attributes);
      r.IndexError? <==> ForecastFails(m, inputDim, attributes)
    ensures var r := SplitData(m, inputDim, outputDim, attributes);
      r.Ok? ==> r.value.inputs == [] && r.value.outputs == []
  {
  }

  /** The forecast loop's read `stockData[-(inputDim + i), attribute]`. */
  function ForecastRead<T>(m: Matrix<T>, inputDim: nat, attribute: int, i: nat): Option<T>
    requires m.WellFormed()
  {
    At(m, -(inputDim + i), attribute)
  }

  /** The first training sample's target read `stockData[inputDim + j, 3]`. */
  function TargetRead<T>(m: Matrix<T>, inputDim: nat, j: nat): Option<T>
    requires m.WellFormed()
  {
    At(m, inputDim + j, CloseColumn)
  }

  /** Some forecast read raises IndexError. */
  predicate ForecastReadFails<T>(m: Matrix<T>, inputDim: nat, attributes: seq<int>)
    requires m.WellFormed()
  {
    exists a, i :: 0 <= a < |attributes| && 0 <= i < inputDim && ForecastRead(m, inputDim, attributes[a], i).None?
  }

  /** Some read of the first training sample raises IndexError: an input read
      `stockData[j, attributes[a]]` or a target read. Later samples read the
      same columns, at rows that also lie in the series. */
  predicate TrainingReadFails<T>(m: Matrix<T>, inputDim: nat, outputDim: nat, attributes: seq<int>)
    requires m.WellFormed()
  {
    && SampleCount(|m.rows|, inputDim, outputDim) > 0
    && (|| (exists a, j :: 0 <= a < |attributes| && 0 <= j < inputDim && At(m, j, attributes[a]).None?)
        || (exists j :: 0 <= j < outputDim && TargetRead(m, inputDim, j).None?))
  }

  /** `splitData` raises IndexError exactly when one of the numpy reads it makes
      raises it, and otherwise succeeds. */
  lemma SplitDataFailsOnRead<T>(m: Matrix<T>, inputDim: nat, outputDim: nat, attributes: seq<int>)
    requires m.WellFormed()
    ensures SplitData(m, inputDim, outputDim, attributes).IndexError? <==>
      ForecastReadFails(m, inputDim, attributes) || TrainingReadFails(m, inputDim, outputDim, attributes)
  {
    var L := |m.rows|;
    if ForecastFails(m, inputDim, attributes) {
      if L < 2 * inputDim - 1 {
        assert !InBounds(L, -(inputDim + (inputDim - 1)));
        assert ForecastRead(m, inputDim, attributes[0], inputDim - 1).None?;
      } else {
        var a :| 0 <= a < |attributes| && !InBounds(m.width, attributes[a]);
        assert ForecastRead(m, inputDim, attributes[a], 0).None?;
      }
    } else if TrainingFails(m, inputDim, outputDim) {
      assert TargetRead(m, inputDim, 0).None?;
    } else {
      forall a, i | 0 <= a < |attributes| && 0 <= i < inputDim
        ensures ForecastRead(m, inputDim, attributes[a], i).Some?
      {
        assert InBounds(m.width, attributes[a]);
      }
      if SampleCount(L, inputDim, outputDim) > 0 {
        forall a, j | 0 <= a < |attributes| && 0 <= j < inputDim
          ensures At(m, j, attributes[a]).Some?
        {
          assert InBounds(m.width, attributes[a]);
        }
        forall j | 0 <= j < outputDim
          ensures TargetRead(m, inputDim, j).Some?
        {
        }
      }
    }
  }

  /** The forecast input in the layout the network is fitted on: the last
      `inputDim` rows, oldest first, as reading row `-(inputDim - i)` gives them. */
  function IntendedForecastBlock<T>(m: Matrix<T>, inputDim: nat, attribute: int): seq<T>
    requires m.WellFormed()
    requires inputDim > 0 ==> inputDim <= |m.rows| && InBounds(m.width, attribute)
  {
    seq(inputDim, i requires 0 <= i < inputDim =>
      m.rows[Wrap(|m.rows|, -(inputDim - i))][Wrap(m.width, attribute)])
  }

  /** Corrected forecast input, attribute-major like the training inputs. */
  function IntendedForecastInput<T>(m: Matrix<T>, inputDim: nat, attributes: seq<int>): seq<T>
    requires m.WellFormed()
    requires inputDim > 0 && |attributes| > 0 ==> inputDim <= |m.rows|
    requires inputDim > 0 ==> ValidColumns(m.width, attributes)
  {
    Flatten(seq(|attributes|, a requires 0 <= a < |attributes| => IntendedForecastBlock(m, inputDim, attributes[a])))
  }

  /** The corrected forecast input is exactly the training-layout window of the
      last `inputDim` rows: the window whose targets would be the next
      `outputDim` days. */
  lemma IntendedForecastIsLastWindow<T>(m: Matrix<T>, inputDim: nat, attributes: seq<int>)
    requires m.WellFormed() && inputDim <= |m.rows|
    requires inputDim > 0 ==> ValidColumns(m.width, attributes)
    ensures IntendedForecastInput(m, inputDim, attributes) == Window(m, |m.rows| - inputDim, inputDim, attributes)
  {
    var start := |m.rows| - inputDim;
    var intended := seq(|attributes|, a requires 0 <= a < |attributes| => IntendedForecastBlock(m, inputDim, attributes[a]));
    var blocks := seq(|attributes|, a requires 0 <= a < |attributes| => Block(m, start, inputDim, attributes[a]));
    forall a | 0 <= a < |attributes|
      ensures intended[a] == blocks[a]
    {
      forall i | 0 <= i < inputDim
        ensures intended[a][i] == blocks[a][i]
      {
        assert Wrap(|m.rows|, -(inputDim - i)) == start + i;
      }
    }
    assert intended == blocks;
  }

  /** Five days of six columns, each cell `10 * row + column`, so that every
      value names the cell it came from. */
  function ExampleSeries(): (m: Matrix<int>)
    ensures m.WellFormed() && |m.rows| == 5 && m.width == 6
    ensures forall r, c :: 0 <= r < 5 && 0 <= c < 6 ==> m.rows[r][c] == 10 * r + c
  {
    Matrix(6, [[0, 1, 2, 3, 4, 5], [10, 11, 12, 13, 14, 15], [20, 21, 22, 23, 24, 25],
               [30, 31, 32, 33, 34, 35], [40, 41, 42, 43, 44, 45]])
  }

  /** The example's training inputs: rows 0, 1 and rows 1, 2 of open and close. */
  lemma ExampleInputs()
    ensures SplitData(ExampleSeries(), 2, 1, [0, 3]).Ok?
    ensures SplitData(ExampleSeries(), 2, 1, [0, 3]).value.inputs == [[0, 10, 3, 13], [10, 20, 13, 23]]
  {
    var m, attributes := ExampleSeries(), [0, 3];
    var w := SplitData(m, 2, 1, attributes).value;
    SampleIs(m, 2, 1, attributes, 0);
    SampleIs(m, 2, 1, attributes, 1);
    WindowCell(m, 0, 2, attributes, 0, 0);
    WindowCell(m, 0, 2, attributes, 0, 1);
    WindowCell(m, 0, 2, attributes, 1, 0);
    WindowCell(m, 0, 2, attributes, 1, 1);
    WindowCell(m, 1, 2, attributes, 0, 0);
    WindowCell(m, 1, 2, attributes, 0, 1);
    WindowCell(m, 1, 2, attributes, 1, 0);
    WindowCell(m, 1, 2, attributes, 1, 1);
    assert w.inputs[0] == [0, 10, 3, 13];
    assert w.inputs[1] == [10, 20, 13, 23];
  }

  /** The example's training outputs: the closes of rows 2 and 3. */
  lemma ExampleOutputs()
    ensures SplitData(ExampleSeries(), 2, 1, [0, 3]).Ok?
    ensures SplitData(ExampleSeries(), 2, 1, [0, 3]).value.outputs == [[23], [33]]
  {
    var m, attributes := ExampleSeries(), [0, 3];
    var w := SplitData(m, 2, 1, attributes).value;
    SampleOutputs(m, 2, 1, attributes);
    assert w.outputs[0] == [23] && w.outputs[1] == [33];
  }

  /** The example's forecast input: rows 3, 2 of open, then rows 3, 2 of close. */
  lemma ExampleForecast()
    ensures SplitData(ExampleSeries(), 2, 1, [0, 3]).Ok?
    ensures SplitData(ExampleSeries(), 2, 1, [0, 3]).value.forecastInput == [30, 20, 33, 23]
  {
    var m, attributes := ExampleSeries(), [0, 3];
    var w := SplitData(m, 2, 1, attributes).value;
    ForecastCell(m, 2, attributes, 0, 0);
    ForecastCell(m, 2, attributes, 0, 1);
    ForecastCell(m, 2, attributes, 1, 0);
    ForecastCell(m, 2, attributes, 1, 1);
  }

  /** The example's last window in training layout: rows 3, 4 of open and close. */
  lemma ExampleIntended()
    ensures IntendedForecastInput(ExampleSeries(), 2, [0, 3]) == [30, 40, 33, 43]
  {
    var m, attributes := ExampleSeries(), [0, 3];
    IntendedForecastIsLastWindow(m, 2, attributes);
    WindowCell(m, 3, 2, attributes, 0, 0);
    WindowCell(m, 3, 2, attributes, 0, 1);
    WindowCell(m, 3, 2, attributes, 1, 0);
    WindowCell(m, 3, 2, attributes, 1, 1);
  }

  /** On a five-day series with `inputDim = 2`, `outputDim = 1` and attributes
      open and close, there are two samples, so the shuffled split has a
      training and a test sample. The code's forecast input is rows 3 then 2
      of each attribute, while the last window is rows 3 then 4. */
  lemma ForecastInputCounterexample()
    ensures SampleCount(|ExampleSeries().rows|, 2, 1) == 2
    ensures SplitData(ExampleSeries(), 2, 1, [0, 3])
      == Ok(Windows([[0, 10, 3, 13], [10, 20, 13, 23]], [[23], [33]], [30, 20, 33, 23]))
    ensures IntendedForecastInput(ExampleSeries(), 2, [0, 3]) == [30, 40, 33, 43]
  {
    ExampleInputs();
    ExampleOutputs();
    ExampleForecast();
    ExampleIntended();
  }

  /** Adding one attribute to a window appends that attribute's block. */
  lemma WindowSnoc<T>(m: Matrix<T>, start: nat, inputDim: nat, attributes: seq<int>, a: nat)
    requires m.WellFormed() && start + inputDim <= |m.rows| && a < |attributes|
    requires inputDim > 0 ==> ValidColumns(m.width, attributes)
    ensures Window(m, start, inputDim, attributes[..a + 1])
      == Window(m, start, inputDim, attributes[..a]) + Block(m, start, inputDim, attributes[a])
  {
    var longer := attributes[..a + 1];
    var blocks := seq(a + 1, b requires 0 <= b < a + 1 => Block(m, start, inputDim, longer[b]));
    assert blocks[..a] == seq(a, b requires 0 <= b < a => Block(m, start, inputDim, attributes[..a][b]));
  }

  /** Adding one attribute to the forecast input appends that attribute's block. */
  lemma ForecastSnoc<T>(m: Matrix<T>, inputDim: nat, attributes: seq<int>, a: nat)
    requires m.WellFormed() && a < |attributes| && !ForecastFails(m, inputDim, attributes[..a + 1])
    ensures !ForecastFails(m, inputDim, attributes[..a])
    ensures ForecastInput(m, inputDim, attributes[..a + 1])
      == ForecastInput(m, inputDim, attributes[..a]) + ForecastBlock(m, inputDim, attributes[a])
  {
    var longer := attributes[..a + 1];
    assert longer[a] == attributes[a];
    var blocks := seq(a + 1, b requires 0 <= b < a + 1 => ForecastBlock(m, inputDim, longer[b]));
    assert blocks[..a] == seq(a, b requires 0 <= b < a => ForecastBlock(m, inputDim, attributes[..a][b]));
  }
}

=== FILE: windowing_loops.dfy ===
/** The nested append loops of `splitData`, statement by statement, with every
    array read that can fail going through numpy's checked access; each loop
    is proved to compute its closed form in the Windowing module, IndexError
    cases included. */
module WindowingLoops {
  import opened Wrappers
  import opened NumPy
  import opened Seqs
  import opened Windowing

  /** The inner forecast loop for one attribute: rows `-(inputDim + i)` for
      `i < inputDim`; `None` when a read raises IndexError. */
  method ForecastBlockLoop<T>(m: Matrix<T>, inputDim: nat, attribute: int) returns (x: Option<seq<T>>)
    requires m.WellFormed()
    ensures x.None? <==> inputDim > 0 && (|m.rows| < 2 * inputDim - 1 || !InBounds(m.width, attribute))
    ensures x.Some? ==> x.value == ForecastBlock(m, inputDim, attribute)
  {
    var height := |m.rows|;
    var block: seq<T> := [];
    for i := 0 to inputDim
      invariant i > 0 ==> InBounds(m.width, attribute) && inputDim + i - 1 <= height
      invariant block == seq(i, t requires 0 <= t < i => m.rows[height - inputDim - t][Wrap(m.width, attribute)])
    {
      var cell := At(m, -(inputDim + i), attribute);
      if cell.None? {
        return None;
      }
      assert Wrap(height, -(inputDim + i)) == height - inputDim - i;
      block := block + [cell.value];
    }
    assert block == ForecastBlock(m, inputDim, attribute) by {
      forall t | 0 <= t < inputDim
        ensures block[t] == ForecastBlock(m, inputDim, attribute)[t]
      {
        assert Wrap(height, -(inputDim + t)) == height - inputDim - t;
      }
    }
    return Some(block);
  }

  /** The forecast loop: for each attribute, its block of rows
      `-(inputDim + i)`; `None` when a read raises IndexError. */
  method ForecastInputLoop<T>(m: Matrix<T>, inputDim: nat, attributes: seq<int>) returns (x: Option<seq<T>>)
    requires m.WellFormed()
    ensures x.None? <==> ForecastFails(m, inputDim, attributes)
    ensures x.Some? ==> x.value == ForecastInput(m, inputDim, attributes)
  {
    var forecastInput: seq<T> := [];
    for a := 0 to |attributes|
      invariant !ForecastFails(m, inputDim, attributes[..a])
      invariant forecastInput == ForecastInput(m, inputDim, attributes[..a])
    {
      var block := ForecastBlockLoop(m, inputDim, attributes[a]);
      if block.None? {
        assert !InBounds(m.width, attributes[a]) ==> !ValidColumns(m.width, attributes);
        return None;
      }
      if inputDim > 0 {
        assert ValidColumns(m.width, attributes[..a]);
        assert ValidColumns(m.width, attributes[..a + 1]);
      }
      ForecastSnoc(m, inputDim, attributes, a);
      forecastInput := forecastInput + block.value;
    }
    assert attributes[..|attributes|] == attributes;
    return Some(forecastInput);
  }

  /** The input half of one training iteration: for each attribute, rows
      `start + j`. Its reads cannot fail once the forecast loop has accepted
      the columns. */
  method WindowLoop<T>(m: Matrix<T>, start: nat, inputDim: nat, attributes: seq<int>) returns (inputsTemp: seq<T>)
    requires m.WellFormed() && start + inputDim <= |m.rows|
    requires inputDim > 0 ==> ValidColumns(m.width, attributes)
    ensures inputsTemp == Window(m, start, inputDim, attributes)
  {
    inputsTemp := [];
    for a := 0 to |attributes|
      invariant inputsTemp == Window(m, start, inputDim, attributes[..a])
    {
      for j := 0 to inputDim
        invariant inputsTemp == Window(m, start, inputDim, attributes[..a])
          + seq(j, t requires 0 <= t < j => m.rows[start + t][Wrap(m.width, attributes[a])])
      {
        inputsTemp := inputsTemp + [m.rows[start + j][Wrap(m.width, attributes[a])]];
      }
      WindowSnoc(m, start, inputDim, attributes, a);
    }
    assert attributes[..|attributes|] == attributes;
  }

  /** The output half of one training iteration: close prices of rows
      `start + j`; `None` when the close column does not exist. */
  method TargetLoop<T>(m: Matrix<T>, start: nat, outputDim: nat) returns (x: Option<seq<T>>)
    requires m.WellFormed() && start + outputDim <= |m.rows|
    ensures x.None? <==> outputDim > 0 && m.width <= CloseColumn
    ensures x.Some? ==> x.value == Target(m, start, outputDim)
  {
    var outputsTemp: seq<T> := [];
    for j := 0 to outputDim
      invariant j > 0 ==> m.width > CloseColumn
      invariant outputsTemp == seq(j, t requires 0 <= t < j => m.rows[start + t][CloseColumn])
    {
      var cell := At(m, start + j, CloseColumn);
      if cell.None? {
        return None;
      }
      outputsTemp := outputsTemp + [cell.value];
    }
    return Some(outputsTemp);
  }

  /** `splitData` up to the train/test split: the forecast loop, then one
      training sample per start row in `range(len(stockData) - inputDim - outputDim)`. */
  method SplitDataLoops<T>(m: Matrix<T>, inputDim: nat, outputDim: nat, attributes: seq<int>)
    returns (r: Result<Windows<T>>)
    requires m.WellFormed()
    ensures r == SplitData(m, inputDim, outputDim, attributes)
  {
    var forecastInput := ForecastInputLoop(m, inputDim, attributes);
    if forecastInput.None? {
      return IndexError;
    }
    assert inputDim > 0 ==> ValidColumns(m.width, attributes);

    var count := SampleCount(|m.rows|, inputDim, outputDim);
    var inputs: seq<seq<T>> := [];
    var outputs: seq<seq<T>> := [];
    for i := 0 to count
      invariant |inputs| == i && |outputs| == i
      invariant i > 0 && outputDim > 0 ==> m.width > CloseColumn
      invariant forall s :: 0 <= s < i ==> inputs[s] == Window(m, s, inputDim, attributes)
      invariant forall s :: 0 <= s < i ==> outputs[s] == Target(m, s + inputDim, outputDim)
    {
      var inputsTemp := WindowLoop(m, i, inputDim, attributes);
      inputs := inputs + [inputsTemp];
      var outputsTemp := TargetLoop(m, i + inputDim, outputDim);
      if outputsTemp.None? {
        return IndexError;
      }
      outputs := outputs + [outputsTemp.value];
    }

    r := Ok(Windows(inputs, outputs, forecastInput.value));
    assert inputs == seq(count, s requires 0 <= s < count => Window(m, s, inputDim, attributes));
    assert outputs == seq(count, s requires 0 <= s < count => Target(m, s + inputDim, outputDim));
  }
}

=== FILE: wrappers.dfy ===
/** Optional values, shared by the modules that model a read or a loop that
    can raise. */
module Wrappers {

  datatype Option<T> = None | Some(value: T)
}
